=== FILE: README.md ===
# zsim memory controller: request dispatch, in Dafny

A model of the `MemoryController` of a zsim-based simulator (`src/mc.cpp`,
`src/mc.h`). The controller sits between the last-level cache and the DRAM
timing models. For each request it:

1. resolves the MESI state granted to the requester (PUTS and PUTX give I,
   GETS gives S with the no-exclusive hint and E without, GETX gives M, any
   other type is fatal), and returns at once, cycle unchanged, for a clean
   eviction (PUTS);
2. records footprint statistics: the total LLC misses, each distinct cache
   line once (compulsory misses) and each distinct 4 KB page once (pages
   touched), with a per-line and a per-page visit count;
3. interleaves the line address over the in-package DRAM modules, with
   device `(line / mapGran) % mcDramsPerCtrl` and local address
   `(line / mapGran / mcDramsPerCtrl * mapGran) | (line % mapGran)`. It then
   submits the request with that local address to the chosen module and
   returns the module's completion cycle, with the caller's line address
   restored.

Modules:

- `Results`: `Option` and `Result`. `Machine`: `u8`/`u32`/`u64` and the
  `uint32_t` to `uint8_t` store of the module count.
- `Bits`: bitwise OR on naturals (`BitOr`), powers of two, and the facts
  that OR never exceeds the sum and equals it for a power-of-two-aligned
  base plus a smaller offset.
- `Coherence`: request types, MESI states, the resolver.
- `Interleaver`: the address map, its inverse `Deinterleave`, and round
  trips in both directions for power-of-two granularities. It also shows
  the collision for granularity 3.
- `Footprint`: the bookkeeping state and `Record`, its invariant `Valid`,
  and a reference `Tally` computed from the whole history of lines that
  reached memory.
- `MemCtrl`: the constructor's checks (`Build`) and one access (`Access`).
  It also holds runs of accesses (`Run`) and the controller invariant tying
  the statistics to the DRAM submissions.

The DRAM backend is a parameter `Backend = (device, request) -> cycle`.
The controller state keeps the log `sent` of every submission, so "no
backend is touched" and "exactly one backend call" can be stated.

Edge cases of the code that the model keeps as written:

- The local address joins block base and offset with `|`
  (`src/mc.cpp:98`), not with `+`. The model proves the interleaving
  injective for every power-of-two granularity, such as the default 1
  (`src/mc.cpp:31`) or 64 (`Interleaver.InterleaveInjective`). For
  granularity 3 it is not injective: lines `3n` and `3n + 1` collide on
  module 0 at local address 3 (`Interleaver.NonPowerOfTwoCollides`).
- `access` always indexes the in-package modules `mcDrams`
  (`src/mc.cpp:97-100`). The external DRAM is set up by the constructor but
  never called, since its call at `src/mc.cpp:104` is commented out. With
  only the external pool configured, `mcDrams` is never assigned. The model
  returns the fatal `NoInPackageDram` for any request that reaches memory.
- The module count is read as 32 bits (`src/mc.cpp:23`) and stored in a
  `uint8_t` (`src/mc.h:34`). It defaults to 0, and the model keeps
  `count % 256`. A count of 0, by default or by truncation, makes every
  request that reaches memory divide by zero (`MemCtrl.EmptyPoolFaults`).

## Model

| member | source | states |
|---|---|---|
| Coherence.Resolve | src/mc.cpp:53-65 | I exactly for PUTS/PUTX, M exactly for GETX, S exactly for GETS with NOEXCL, E exactly for GETS without it; fatal (None) exactly for a type outside the four |
| Coherence.NoExclOnlyAffectsGets | src/mc.cpp:53-63 | the NOEXCL flag changes the granted state for GETS and for no other request type (GETX is M even with it) |
| Coherence.GrantedExclusivity | src/mc.cpp:53-63 | an exclusive state (E or M) is granted exactly to GETX and to GETS without NOEXCL; I exactly to evictions |
| Machine.TruncateToU8 | src/mc.h:34 | storing the 32-bit count in the 8-bit field keeps it exactly when it is below 256, and otherwise keeps its remainder modulo 256 |
| MemCtrl.PoolOfCount | src/mc.cpp:23 | the pool keeps a configured module count exactly when it is below 256, and has no module exactly when the count (default 0) is a multiple of 256 |
| MemCtrl.Build | src/mc.cpp:8-48 | construction fails with "no DRAM module" exactly when neither pool is configured. It succeeds exactly when some pool exists and no module of a non-DDR type is built. A built controller records whether the external pool exists. Its in-package pool is present exactly when configured, with the count read (default 0) and stored in 8 bits and the granularity read (default 1). It starts with empty statistics and no submissions |
| MemCtrl.BuildValid | src/mc.cpp:11-45 | every controller that construction returns satisfies the controller invariant |
| Bits.BitOrAtMostSum | src/mc.cpp:98 | the OR of base and offset is never above their sum |
| Bits.BitOrDisjoint | src/mc.cpp:98 | OR of a multiple of a power of two `g` and an offset below `g` is their sum |
| Bits.PowerOfTwoOrIsAddition | src/mc.cpp:98 | for every power-of-two granularity the OR in the local address acts as addition |
| Interleaver.Interleave | src/mc.cpp:97-98 | the module index is below the module count, and the local address never exceeds the line address (so it fits the 64-bit address) |
| MemCtrl.Route | src/mc.cpp:97-98 | the module chosen for a line is one of the pool's modules, and its local address is at most the line address |
| Interleaver.LocalIsBasePlusOffset | src/mc.cpp:98 | when OR acts as addition, the local address is the block's base inside its module plus the offset in the block |
| Interleaver.DecodeBasePlusOffset | src/mc.cpp:97-98 | the block's module together with the block base inside the module plus the offset decodes to the line address |
| Interleaver.InterleaveRoundTrip | src/mc.cpp:97-98 | for a power-of-two granularity, `((local / g) * n + index) * g + local % g` gives back the line address |
| Interleaver.DeinterleaveRoundTrip | src/mc.cpp:97-98 | for a power-of-two granularity, every (module, local address) pair with an existing module is the image of the address `Deinterleave` gives |
| Interleaver.InterleaveInjective | src/mc.cpp:97-98 | for a power-of-two granularity, two line addresses get the same module and local address exactly when they are equal |
| Interleaver.NonPowerOfTwoCollides | src/mc.cpp:98 | with granularity 3, for every module count n, lines 3n and 3n+1 both map to module 0, local address 3 |
| Interleaver.UnitGranularityRoundRobin | src/mc.cpp:26-31 | the default granularity 1 sends line a to module a mod n at local address a / n |
| Interleaver.SingleModuleIsIdentity | src/mc.cpp:97-98 | with one module and a power-of-two granularity, routing is the identity |
| Interleaver.BlockStaysContiguous | src/mc.cpp:26-30 | inside a block, the next line goes to the same module at the next local address |
| Interleaver.NextBlockNextModule | src/mc.cpp:26-30 | the block after a line's block goes to the next module, wrapping after the last |
| Interleaver.Example64x4 | src/mc.cpp:97-98 | granularity 64 and four modules: line 10 goes to module 0, local 10; line 138 to module 2, local 10 |
| Footprint.Visit | src/mc.cpp:77-89 | a visit adds the key if it is new and raises its count by one; every other key keeps its count |
| Footprint.Record | src/mc.cpp:69-89 | the total rises by one; compulsory misses rise exactly when the line is new, pages touched exactly when the page (line / 64) is new; only that line's and that page's counts change, each by one |
| Footprint.EmptyValid | src/mc.h:38-41 | the initial statistics satisfy the bookkeeping invariant |
| Footprint.RecordPreservesValid | src/mc.cpp:75-89 | recording keeps compulsory misses equal to the number of distinct lines and pages touched equal to the number of distinct pages. The touched pages stay the pages of the touched lines, compulsory misses stay at most the total, and every count stays at least 1 |
| Footprint.ReplayPreservesValid | src/mc.cpp:75-89 | the invariant holds after any sequence of recorded lines |
| Footprint.PagesOfNoLarger | src/mc.cpp:70 | a set of lines touches at most as many pages as it has lines |
| Footprint.ValidCountersOrdered | src/mc.h:41 | under the invariant, pages touched <= compulsory misses <= total misses |
| Footprint.HistogramExtends | src/mc.cpp:77-82 | one more occurrence in the history is one `Visit` of the occurrence counts |
| Footprint.RecordExtendsTally | src/mc.cpp:69-89 | recording a line moves the reference statistics of a history to those of the history extended by that line |
| Footprint.ReplayExtendsTally | src/mc.cpp:69-89 | recording a sequence of lines extends the reference history by that sequence |
| Footprint.ReplayIsTally | src/mc.cpp:69-89 | from empty statistics, each line's count is its number of occurrences and each page's count the occurrences of lines in it. The total is the number of lines, compulsory misses the distinct lines, pages touched the distinct pages |
| MemCtrl.Access | src/mc.cpp:50-125 | fails exactly for an unknown type, or for a non-PUTS request without a usable in-package pool. The request keeps its address and gets the resolved state; PUTS returns its own cycle and changes nothing. Any other request is recorded once and appends exactly one submission: the routed module and local address, original cycle. The returned cycle is that module's reply |
| MemCtrl.AccessPreservesValid | src/mc.cpp:67-101 | every access that does not fail keeps the controller invariant: statistics consistent, one submission per counted miss, every submission to an existing module |
| MemCtrl.RunPreservesValid | src/mc.cpp:67-101 | a run of accesses keeps the controller invariant |
| MemCtrl.ValidCountersOrdered | src/mc.h:39-41 | for a valid controller, pages touched <= compulsory misses <= total misses |
| MemCtrl.RunRecordsMisses | src/mc.cpp:67-89 | after a run, the statistics are the old ones with exactly the non-PUTS requests' lines recorded in order; the old submission log is kept as a prefix and grows by exactly one entry per such request |
| MemCtrl.FreshRunTally | src/mc.cpp:67-89 | from construction, the statistics after a run equal the reference tally of the non-PUTS requests' lines: clean evictions are never counted |
| MemCtrl.SubmissionNamesLine | src/mc.cpp:97-101 | with a usable in-package pool of power-of-two granularity, every GETS, GETX and PUTX access succeeds, and the module index and rewritten address sent to DRAM decode to the caller's line address |
| MemCtrl.EmptyPoolFaults | src/mc.cpp:23 | a module count of 0, by default or after truncation to 8 bits, makes every GETS, GETX and PUTX access fail with a division by zero |
| MemCtrl.ScenarioTwoReads | src/mc.cpp:53-101 | 64-line interleaving over four modules: GETS to lines 10 and 138 are granted E, go to modules 0 and 2 at local address 10, and count two misses, two lines and two pages |

## Left out

- `BuildDDRMemory` and the DRAM timing model: a backend is an arbitrary total function from (module, request) to a completion cycle, and the external DRAM pool is only a flag. A backend is one fixed function for the whole run: a DRAM model whose reply depends on earlier submissions (queues, open rows) cannot be expressed. No proved property speaks of the returned cycles.
- `initStats`: registration of the counters in the statistics tree is reporting plumbing.
- The lock around dispatch: accesses are modelled as one sequential state transformer, so the critical section has no counterpart.
- The commented-out routing by address parity to the external DRAM: it is not current behaviour.
- Configuration reading, `gm_malloc` and logging in the constructor: only the keys that decide the pools, their types, the module count and the granularity are modelled.
- Request fields other than type, line address, the no-exclusive flag, state and cycle.
- MemCtrl.Build: the two `assert(false)` for non-DDR pool types are modelled as fatal. With assertions disabled the source would go on. A non-DDR external pool would leave `extDram` unset. A non-DDR in-package pool would have its `mcDrams` array allocated (`src/mc.cpp:24`) with every entry unset (`src/mc.cpp:40`), and later accesses would call through those unset entries. The model also makes two assumptions about the pointers. First, `gm_malloc` returns a usable, non-null array even for a module count of 0 (`src/mc.cpp:24`). Second, `extDram` and `mcDrams` are null when their section is absent, although the constructor never initialises them (`src/mc.h:28`, `src/mc.h:33`; the initialiser list at `src/mc.cpp:9` sets only `name`). Only under both does the "no DRAM" check (`src/mc.cpp:45`) fail exactly when neither section is configured, and only under the second does an access without an in-package section fail with `NoInPackageDram`.
- Footprint.Record: the counters and per-key counts are unbounded naturals; the 64-bit counters of the source would wrap only after 2^64 increments.
- Bits.PowerOfTwoOrIsAddition: proves only that powers of two make OR act as addition, not the converse.
- The statistics post-processing script and the two workload test programs: file I/O and trivial workloads, no controller logic.

=== FILE: bits.dfy ===
/** Bitwise OR on unbounded naturals and the power-of-two facts the address
    interleaver needs. For operands below 2^64 `BitOr` is the C++ `|` on
    `uint64_t`. */
module Bits {

  /** Bitwise OR of two naturals. */
  function BitOr(x: nat, y: nat): nat {
    OrDigits(x, y)
  }

  /** Bitwise OR, one binary digit at a time from the least significant. */
  function OrDigits(x: nat, y: nat): nat
    decreases x + y
  {
    if x == 0 then y
    else if y == 0 then x
    else 2 * OrDigits(x / 2, y / 2) + (if x % 2 == 1 || y % 2 == 1 then 1 else 0)
  }

  /** Two to the power `e`. */
  function Pow2(e: nat): (r: nat)
    ensures r >= 1
  {
    if e == 0 then 1 else 2 * Pow2(e - 1)
  }

  /** `g` is 1, 2, 4, 8, ... */
  ghost predicate IsPowerOfTwo(g: nat) {
    exists e: nat :: Pow2(e) == g
  }

  /** A positive multiple of `b` is at least `b`. */
  lemma MulAtLeast(k: int, b: int)
    requires k >= 1 && b >= 0
    ensures k * b >= b
  {
    assert k * b == (k - 1) * b + b;
  }

  /** Euclidean division has exactly one quotient/remainder pair. */
  lemma DivModUnique(a: int, b: int, q: int, r: int)
    requires b > 0 && 0 <= r < b && a == q * b + r
    ensures a / b == q && a % b == r
  {
    var q0, r0 := a / b, a % b;
    assert a == q0 * b + r0;
    if q0 < q {
      assert (q - q0) * b == q * b - q0 * b;
      MulAtLeast(q - q0, b);
    } else if q < q0 {
      assert (q0 - q) * b == q0 * b - q * b;
      MulAtLeast(q0 - q, b);
    }
  }

  /** Multiplying by a natural keeps order. */
  lemma MulMonotone(a: int, b: int, c: int)
    requires a <= b && c >= 0
    ensures a * c <= b * c
  {
    assert b * c - a * c == (b - a) * c;
  }

  /** Block base plus offset never passes the line address itself:
      `(a / g / n) * g + a % g <= a`. */
  lemma BaseBelowLine(a: nat, g: nat, n: nat)
    requires g >= 1 && n >= 1
    ensures a / g / n * g + a % g <= a
  {
    var block := a / g;
    var k := block / n;
    assert k <= block;
    MulMonotone(k, block, g);
    assert block * g + a % g == a;
  }

  /** Halving a multiple of an even `g` gives a multiple of `g / 2`. */
  lemma HalveMultiple(x: nat, g: nat)
    requires g >= 2 && g % 2 == 0 && x % g == 0
    ensures x % 2 == 0 && (x / 2) % (g / 2) == 0
  {
    var q, h := x / g, g / 2;
    assert x == q * g;
    assert g == 2 * h;
    assert x == (q * h) * 2;
    DivModUnique(x, 2, q * h, 0);
    DivModUnique(x / 2, h, q, 0);
  }

  /** OR never exceeds the sum: no carries are produced. */
  lemma BitOrAtMostSum(x: nat, y: nat)
    ensures BitOr(x, y) <= x + y
  {
    OrDigitsAtMostSum(x, y);
  }

  lemma {:induction false} OrDigitsAtMostSum(x: nat, y: nat)
    ensures OrDigits(x, y) <= x + y
    decreases x + y
  {
    if x != 0 && y != 0 {
      OrDigitsAtMostSum(x / 2, y / 2);
    }
  }

  /** When `g` is a power of two, `x` is a multiple of `g` and `y < g`, the
      set bits of `x` and `y` are disjoint, so OR is addition. */
  lemma {:induction false} BitOrDisjoint(x: nat, y: nat, g: nat)
    requires IsPowerOfTwo(g) && x % g == 0 && y < g
    ensures BitOr(x, y) == x + y
  {
    var e: nat :| Pow2(e) == g;
    BitOrDisjointPow2(x, y, e);
  }

  lemma {:induction false} BitOrDisjointPow2(x: nat, y: nat, e: nat)
    requires x % Pow2(e) == 0 && y < Pow2(e)
    ensures OrDigits(x, y) == x + y
    decreases e
  {
    if x != 0 && y != 0 {
      HalveMultiple(x, Pow2(e));
      BitOrDisjointPow2(x / 2, y / 2, e - 1);
    }
  }

  /** A power of two is positive. */
  lemma PowerOfTwoPositive(g: nat)
    requires IsPowerOfTwo(g)
    ensures g >= 1
  {
    var e: nat :| Pow2(e) == g;
  }

  /** OR of a multiple of `g` with an offset below `g` is their sum. */
  ghost predicate OrIsAddition(g: nat) {
    && g >= 1
    && forall x: nat, y: nat {:trigger BitOr(x, y)} :: x % g == 0 && y < g ==> BitOr(x, y) == x + y
  }

  /** Every power of two has that property. */
  lemma PowerOfTwoOrIsAddition(g: nat)
    requires IsPowerOfTwo(g)
    ensures OrIsAddition(g)
  {
    PowerOfTwoPositive(g);
    forall x: nat, y: nat | x % g == 0 && y < g
      ensures BitOr(x, y) == x + y
    {
      BitOrDisjoint(x, y, g);
    }
  }

  /** Uses `OrIsAddition` at one multiple `k * g` and one offset `r`. */
  lemma OrAddsAtBlock(g: nat, k: nat, r: nat)
    requires OrIsAddition(g) && r < g
    ensures BitOr(k * g, r) == k * g + r
  {
    DivModUnique(k * g, g, k, 0);
    assert BitOr(k * g, r) == k * g + r;
  }
}

=== FILE: coherence.dfy ===
/** The coherence step of a memory-controller access: which MESI state the
    requesting cache is granted, and whether the request reaches memory. */
module Coherence {
  import opened Results

  /** Request types of the cache hierarchy. `Unrecognised` stands for any
      value of the request-type field outside the four known types. */
  datatype AccessType = GETS | GETX | PUTS | PUTX | Unrecognised(raw: int)

  datatype MESIState = I | S | E | M

  /** A clean eviction or a dirty writeback. */
  predicate IsEviction(kind: AccessType) {
    kind == PUTS || kind == PUTX
  }

  /** States in which the holder may write without asking again. */
  predicate IsExclusive(st: MESIState) {
    st == E || st == M
  }

  /** Only clean evictions skip the bookkeeping and the DRAM backend: there
      is no data to write and no miss to serve. */
  predicate Bypasses(kind: AccessType) {
    kind == PUTS
  }

  /** The state written back into the request, or `None` for the fatal
      "unreachable request type" error. */
  function Resolve(kind: AccessType, noExcl: bool): (r: Option<MESIState>)
    ensures r.None? <==> kind.Unrecognised?
    ensures r == Some(I) <==> IsEviction(kind)
    ensures r == Some(M) <==> kind == GETX
    ensures r == Some(S) <==> kind == GETS && noExcl
    ensures r == Some(E) <==> kind == GETS && !noExcl
  {
    match kind
    case PUTS => Some(I)
    case PUTX => Some(I)
    case GETS => Some(if noExcl then S else E)
    case GETX => Some(M)
    case Unrecognised(_) => None
  }

  /** The no-exclusive hint only matters to GETS: every other type resolves
      the same with or without it. */
  lemma NoExclOnlyAffectsGets(kind: AccessType)
    ensures kind != GETS ==> Resolve(kind, true) == Resolve(kind, false)
    ensures kind == GETS ==> Resolve(kind, true) != Resolve(kind, false)
  {
  }

  /** A read or write request that carries the no-exclusive hint is never
      granted E; only GETX can yield an exclusive state despite it. */
  lemma GrantedExclusivity(kind: AccessType, noExcl: bool, st: MESIState)
    requires Resolve(kind, noExcl) == Some(st)
    ensures IsExclusive(st) <==> (kind == GETX || (kind == GETS && !noExcl))
    ensures st == I <==> IsEviction(kind)
  {
  }
}

=== FILE: footprint.dfy ===
/** The controller's footprint statistics: how often each cache line and
    each 4 KB page was requested, and three running counters (total LLC
    misses, compulsory misses, pages touched). */
module Footprint {

  const PAGE_BYTES: nat := 4096
  const LINE_BYTES: nat := 64
  /** The controller divides by the literal `4096 / 64` (64 lines per page),
      whatever line size the rest of the simulator is configured with. */
  const LINES_PER_PAGE: nat := PAGE_BYTES / LINE_BYTES

  function PageOf(line: nat): nat {
    line / LINES_PER_PAGE
  }

  datatype Bookkeeper = Bookkeeper(
    uniqueCacheLines: map<nat, nat>,
    uniquePages: map<nat, nat>,
    llcTotalMisses: nat,
    llcCompMisses: nat,
    totalPages: nat)

  /** The state of a freshly built controller. */
  const EMPTY: Bookkeeper := Bookkeeper(map[], map[], 0, 0, 0)

  /** How often `k` was counted in `m`; an absent key was never counted. */
  function Count(m: map<nat, nat>, k: nat): nat {
    if k in m then m[k] else 0
  }

  /** Counts one more visit of `key`: a first visit inserts it with count 1,
      a revisit increments its count. */
  function Visit(m: map<nat, nat>, key: nat): (m': map<nat, nat>)
    ensures m'.Keys == m.Keys + {key}
    ensures forall k :: Count(m', k) == Count(m, k) + (if k == key then 1 else 0)
  {
    if key in m then m[key := m[key] + 1] else m[key := 1]
  }

  /** The bookkeeping done for one access that reaches memory. */
  function Record(b: Bookkeeper, line: nat): (b': Bookkeeper)
    ensures b'.llcTotalMisses == b.llcTotalMisses + 1
    ensures b'.llcCompMisses == b.llcCompMisses + (if line in b.uniqueCacheLines then 0 else 1)
    ensures b'.totalPages == b.totalPages + (if PageOf(line) in b.uniquePages then 0 else 1)
    ensures forall k :: Count(b'.uniqueCacheLines, k)
                     == Count(b.uniqueCacheLines, k) + (if k == line then 1 else 0)
    ensures forall p :: Count(b'.uniquePages, p)
                     == Count(b.uniquePages, p) + (if p == PageOf(line) then 1 else 0)
  {
    var page := PageOf(line);
    Bookkeeper(
      Visit(b.uniqueCacheLines, line),
      Visit(b.uniquePages, page),
      b.llcTotalMisses + 1,
      if line in b.uniqueCacheLines then b.llcCompMisses else b.llcCompMisses + 1,
      if page in b.uniquePages then b.totalPages else b.totalPages + 1)
  }

  /** Records a sequence of line addresses, oldest first. */
  function Replay(b: Bookkeeper, lines: seq<nat>): Bookkeeper
    decreases |lines|
  {
    if |lines| == 0 then b else Replay(Record(b, lines[0]), lines[1..])
  }

  // ---------------------------------------------------------------------
  // Invariant

  /** The pages touched by a set of lines. */
  function PagesOf(lines: set<nat>): set<nat> {
    set l | l in lines :: PageOf(l)
  }

  /** Each counter agrees with the maps it summarises, and every page with
      a count contains a line with a count. */
  ghost predicate Valid(b: Bookkeeper) {
    && b.llcCompMisses == |b.uniqueCacheLines.Keys|
    && b.totalPages == |b.uniquePages.Keys|
    && b.uniquePages.Keys == PagesOf(b.uniqueCacheLines.Keys)
    && b.llcCompMisses <= b.llcTotalMisses
    && (forall k :: k in b.uniqueCacheLines ==> b.uniqueCacheLines[k] >= 1)
    && (forall p :: p in b.uniquePages ==> b.uniquePages[p] >= 1)
  }

  lemma EmptyValid()
    ensures Valid(EMPTY)
  {
    assert PagesOf({}) == {};
  }

  lemma RecordPreservesValid(b: Bookkeeper, line: nat)
    requires Valid(b)
    ensures Valid(Record(b, line))
  {
    var b' := Record(b, line);
    assert PagesOf(b.uniqueCacheLines.Keys + {line})
        == PagesOf(b.uniqueCacheLines.Keys) + {PageOf(line)};
    forall k | k in b'.uniqueCacheLines
      ensures b'.uniqueCacheLines[k] >= 1
    {
      assert Count(b'.uniqueCacheLines, k) == b'.uniqueCacheLines[k];
    }
    forall p | p in b'.uniquePages
      ensures b'.uniquePages[p] >= 1
    {
      assert Count(b'.uniquePages, p) == b'.uniquePages[p];
    }
  }

  lemma {:induction false} ReplayPreservesValid(b: Bookkeeper, lines: seq<nat>)
    requires Valid(b)
    ensures Valid(Replay(b, lines))
    decreases |lines|
  {
    if |lines| > 0 {
      RecordPreservesValid(b, lines[0]);
      ReplayPreservesValid(Record(b, lines[0]), lines[1..]);
    }
  }

  /** A set of lines touches no more pages than it has lines. */
  lemma {:induction false} PagesOfNoLarger(lines: set<nat>)
    ensures |PagesOf(lines)| <= |lines|
    decreases |lines|
  {
    if lines != {} {
      var l :| l in lines;
      var rest := lines - {l};
      PagesOfNoLarger(rest);
      assert PagesOf(lines) == PagesOf(rest) + {PageOf(l)};
    }
  }

  /** The three counters are ordered: pages touched <= distinct lines <=
      total misses. */
  lemma ValidCountersOrdered(b: Bookkeeper)
    requires Valid(b)
    ensures b.totalPages <= b.llcCompMisses <= b.llcTotalMisses
  {
    PagesOfNoLarger(b.uniqueCacheLines.Keys);
  }

  // ---------------------------------------------------------------------
  // Reference: the statistics as a function of the request history

  /** The distinct values of a sequence. */
  function Distinct(h: seq<nat>): set<nat> {
    set k | k in h
  }

  /** How many times each value occurs in a sequence. */
  function Histogram(h: seq<nat>): map<nat, nat> {
    map k | k in h :: multiset(h)[k]
  }

  /** The page of every line of a sequence, in order. */
  function PageTrace(h: seq<nat>): (pages: seq<nat>)
    ensures |pages| == |h|
  {
    seq(|h|, i requires 0 <= i < |h| => PageOf(h[i]))
  }

  /** What the statistics must be after the lines `h` reached memory, in
      that order, starting from a fresh controller. */
  function Tally(h: seq<nat>): Bookkeeper {
    Bookkeeper(
      Histogram(h),
      Histogram(PageTrace(h)),
      |h|,
      |Distinct(h)|,
      |Distinct(PageTrace(h))|)
  }

  lemma HistogramExtends(h: seq<nat>, x: nat)
    ensures Visit(Histogram(h), x) == Histogram(h + [x])
    ensures x in Histogram(h) <==> x in h
  {
    assert multiset(h + [x]) == multiset(h) + multiset{x};
    var v, w := Visit(Histogram(h), x), Histogram(h + [x]);
    assert v.Keys == w.Keys;
    forall k | k in v
      ensures v[k] == w[k]
    {
      assert Count(v, k) == v[k];
    }
  }

  lemma DistinctExtends(h: seq<nat>, x: nat)
    ensures Distinct(h + [x]) == Distinct(h) + {x}
    ensures |Distinct(h + [x])| == |Distinct(h)| + (if x in h then 0 else 1)
  {
    assert Distinct(h + [x]) == Distinct(h) + {x};
  }

  lemma PageTraceExtends(h: seq<nat>, x: nat)
    ensures PageTrace(h + [x]) == PageTrace(h) + [PageOf(x)]
  {
  }

  /** Recording one more line moves the reference one step forward. */
  lemma RecordExtendsTally(h: seq<nat>, x: nat)
    ensures Record(Tally(h), x) == Tally(h + [x])
  {
    var pages := PageTrace(h);
    PageTraceExtends(h, x);
    HistogramExtends(h, x);
    HistogramExtends(pages, PageOf(x));
    DistinctExtends(h, x);
    DistinctExtends(pages, PageOf(x));
  }

  /** Replaying lines from the statistics of a history gives the statistics
      of the extended history. */
  lemma {:induction false} ReplayExtendsTally(h: seq<nat>, lines: seq<nat>)
    ensures Replay(Tally(h), lines) == Tally(h + lines)
    decreases |lines|
  {
    if |lines| == 0 {
      assert h + lines == h;
    } else {
      var h' := h + [lines[0]];
      assert h' + lines[1..] == h + lines;
      calc {
        Replay(Tally(h), lines);
        Replay(Record(Tally(h), lines[0]), lines[1..]);
        { RecordExtendsTally(h, lines[0]); }
        Replay(Tally(h'), lines[1..]);
        { ReplayExtendsTally(h', lines[1..]); }
        Tally(h' + lines[1..]);
      }
    }
  }

  /** From a fresh controller, the statistics are exactly the reference:
      every count is the number of occurrences in the history, the total is
      its length, the compulsory misses are its distinct lines and the pages
      touched are its distinct pages. */
  lemma {:induction false} ReplayIsTally(lines: seq<nat>)
    ensures Replay(EMPTY, lines) == Tally(lines)
  {
    assert Tally([]) == EMPTY;
    ReplayExtendsTally([], lines);
    assert [] + lines == lines;
  }
}

=== FILE: interleaver.dfy ===
/** Mapping of a global cache-line address onto one of the in-package DRAM
    modules and an address local to that module. Blocks of `gran`
    consecutive lines go to the same module; blocks rotate over the
    `drams` modules; within a module a block keeps its low-order offset. */
module Interleaver {
  import opened Bits

  /** Target module and the line address the module sees. */
  datatype Placement = Placement(device: nat, local: nat)

  /** The routing of one line address. The local address combines the
      block base and the offset with a bitwise OR, as the controller does. */
  function Interleave(line: nat, gran: nat, drams: nat): (p: Placement)
    requires gran >= 1 && drams >= 1
    ensures p.device < drams
    ensures p.local <= line
  {
    var block := line / gran;
    var base := block / drams * gran;
    BitOrAtMostSum(base, line % gran);
    BaseBelowLine(line, gran, drams);
    Placement(block % drams, BitOr(base, line % gran))
  }

  /** The line address a module-local placement came from, computed with
      `+` where the controller uses `|`. */
  function Deinterleave(p: Placement, gran: nat, drams: nat): nat
    requires gran >= 1
  {
    (p.local / gran * drams + p.device) * gran + p.local % gran
  }

  /** When OR adds for `gran`, the local address is the block base within
      the module plus the offset. */
  lemma LocalIsBasePlusOffset(line: nat, gran: nat, drams: nat)
    requires drams >= 1 && OrIsAddition(gran)
    ensures Interleave(line, gran, drams).local == line / gran / drams * gran + line % gran
  {
    var k, r := line / gran / drams, line % gran;
    OrAddsAtBlock(gran, k, r);
    assert Interleave(line, gran, drams).local == BitOr(k * gran, r);
  }

  /** Decoding the block's module and its base-plus-offset local address
      gives back the line. */
  lemma DecodeBasePlusOffset(line: nat, gran: nat, drams: nat)
    requires gran >= 1 && drams >= 1
    ensures Deinterleave(Placement(line / gran % drams, line / gran / drams * gran + line % gran), gran, drams) == line
  {
    var block := line / gran;
    DivModUnique(block / drams * gran + line % gran, gran, block / drams, line % gran);
    assert block / drams * drams + block % drams == block;
    assert block * gran + line % gran == line;
  }

  lemma RoundTripAligned(line: nat, gran: nat, drams: nat)
    requires drams >= 1 && OrIsAddition(gran)
    ensures Deinterleave(Interleave(line, gran, drams), gran, drams) == line
  {
    LocalIsBasePlusOffset(line, gran, drams);
    DecodeBasePlusOffset(line, gran, drams);
  }

  /** Decoding an encoded line address gives it back. */
  lemma InterleaveRoundTrip(line: nat, gran: nat, drams: nat)
    requires drams >= 1 && IsPowerOfTwo(gran)
    ensures gran >= 1 && Deinterleave(Interleave(line, gran, drams), gran, drams) == line
  {
    PowerOfTwoOrIsAddition(gran);
    RoundTripAligned(line, gran, drams);
  }

  lemma OntoAligned(p: Placement, gran: nat, drams: nat)
    requires drams >= 1 && OrIsAddition(gran) && p.device < drams
    ensures Interleave(Deinterleave(p, gran, drams), gran, drams) == p
  {
    var line := Deinterleave(p, gran, drams);
    var block := p.local / gran * drams + p.device;
    DivModUnique(line, gran, block, p.local % gran);
    DivModUnique(block, drams, p.local / gran, p.device);
    LocalIsBasePlusOffset(line, gran, drams);
  }

  /** Every placement on an existing module is reached, from the address
      `Deinterleave` names: the map is onto. */
  lemma DeinterleaveRoundTrip(p: Placement, gran: nat, drams: nat)
    requires drams >= 1 && IsPowerOfTwo(gran) && p.device < drams
    ensures gran >= 1 && Interleave(Deinterleave(p, gran, drams), gran, drams) == p
  {
    PowerOfTwoOrIsAddition(gran);
    OntoAligned(p, gran, drams);
  }

  /** Two line addresses share a module and a module-local address exactly
      when they are equal, for a power-of-two granularity. */
  lemma InterleaveInjective(a: nat, b: nat, gran: nat, drams: nat)
    requires drams >= 1 && IsPowerOfTwo(gran)
    ensures gran >= 1 && (Interleave(a, gran, drams) == Interleave(b, gran, drams) <==> a == b)
  {
    InterleaveRoundTrip(a, gran, drams);
    InterleaveRoundTrip(b, gran, drams);
  }

  /** With a granularity of 3 the OR merges offset bits into the block base:
      lines `3n` and `3n + 1` both land on module 0 at local address 3, for
      every module count `n`. */
  lemma NonPowerOfTwoCollides(drams: nat)
    requires drams >= 1
    ensures Interleave(3 * drams, 3, drams) == Placement(0, 3)
    ensures Interleave(3 * drams + 1, 3, drams) == Placement(0, 3)
  {
    DivModUnique(3 * drams, 3, drams, 0);
    DivModUnique(3 * drams + 1, 3, drams, 1);
    DivModUnique(drams, drams, 1, 0);
    assert OrDigits(3, 1) == 2 * OrDigits(1, 0) + 1;
  }

  /** A granularity of one line is plain round-robin over the modules. */
  lemma UnitGranularityRoundRobin(line: nat, drams: nat)
    requires drams >= 1
    ensures Interleave(line, 1, drams) == Placement(line % drams, line / drams)
  {
    assert Pow2(0) == 1;
    PowerOfTwoOrIsAddition(1);
    LocalIsBasePlusOffset(line, 1, drams);
  }

  /** With a single module the routing is the identity. */
  lemma SingleModuleIsIdentity(line: nat, gran: nat)
    requires IsPowerOfTwo(gran)
    ensures gran >= 1 && Interleave(line, gran, 1) == Placement(0, line)
  {
    PowerOfTwoOrIsAddition(gran);
    LocalIsBasePlusOffset(line, gran, 1);
  }

  lemma ContiguousAligned(line: nat, gran: nat, drams: nat)
    requires drams >= 1 && OrIsAddition(gran) && line % gran + 1 < gran
    ensures Interleave(line + 1, gran, drams).device == Interleave(line, gran, drams).device
    ensures Interleave(line + 1, gran, drams).local == Interleave(line, gran, drams).local + 1
  {
    DivModUnique(line + 1, gran, line / gran, line % gran + 1);
    LocalIsBasePlusOffset(line, gran, drams);
    LocalIsBasePlusOffset(line + 1, gran, drams);
  }

  /** Consecutive lines inside one block stay on the same module at
      consecutive local addresses, which keeps DRAM row-buffer locality. */
  lemma BlockStaysContiguous(line: nat, gran: nat, drams: nat)
    requires drams >= 1 && IsPowerOfTwo(gran)
    ensures gran >= 1
    ensures line % gran + 1 < gran ==>
      && Interleave(line + 1, gran, drams).device == Interleave(line, gran, drams).device
      && Interleave(line + 1, gran, drams).local == Interleave(line, gran, drams).local + 1
  {
    PowerOfTwoOrIsAddition(gran);
    if line % gran + 1 < gran {
      ContiguousAligned(line, gran, drams);
    }
  }

  /** The next block goes to the next module, wrapping after the last. */
  lemma NextBlockNextModule(line: nat, gran: nat, drams: nat)
    requires gran >= 1 && drams >= 1
    ensures Interleave(line + gran, gran, drams).device
         == (Interleave(line, gran, drams).device + 1) % drams
  {
    DivModUnique(line + gran, gran, line / gran + 1, line % gran);
    SuccessorResidue(line / gran, drams);
  }

  /** `(b + 1) mod n` follows `b mod n` cyclically. */
  lemma SuccessorResidue(b: nat, n: nat)
    requires n >= 1
    ensures (b + 1) % n == (b % n + 1) % n
  {
    if b % n + 1 < n {
      DivModUnique(b + 1, n, b / n, b % n + 1);
      DivModUnique(b % n + 1, n, 0, b % n + 1);
    } else {
      DivModUnique(b + 1, n, b / n + 1, 0);
      DivModUnique(n, n, 1, 0);
    }
  }

  /** The worked example: 64-line blocks over four modules. */
  lemma Example64x4()
    ensures Interleave(10, 64, 4) == Placement(0, 10)
    ensures Interleave(138, 64, 4) == Placement(2, 10)
  {
  }
}

=== FILE: machine.dfy ===
/** Fixed-width unsigned integers of the C++ source, as subset types of `int`. */
module Machine {

  const U8_LIMIT: int := 0x100
  const U32_LIMIT: int := 0x1_0000_0000
  const U64_LIMIT: int := 0x1_0000_0000_0000_0000

  type u8 = x: int | 0 <= x < U8_LIMIT
  type u32 = x: int | 0 <= x < U32_LIMIT
  type u64 = x: int | 0 <= x < U64_LIMIT

  /** Storing a `uint32_t` into a `uint8_t` keeps the low eight bits. */
  function TruncateToU8(x: u32): (r: u8)
    ensures r == x <==> x < U8_LIMIT
    ensures x == (x / U8_LIMIT) * U8_LIMIT + r
  {
    x % U8_LIMIT
  }
}

=== FILE: memctrl.dfy ===
/** The memory controller: built once from the configuration, then serving
    every request that misses in the last-level cache. An access resolves
    the coherence state, skips clean evictions, records footprint
    statistics, and hands the request to one in-package DRAM module with
    the line address rewritten to that module's local address. */
module MemCtrl {
  import opened Results
  import opened Machine
  import opened Coherence
  import opened Bits
  import opened Interleaver
  import Footprint

  /** The fields of a memory request the controller reads or writes. */
  datatype MemReq = MemReq(
    kind: AccessType,
    lineAddr: u64,
    noExcl: bool,
    state: MESIState,
    cycle: u64)

  /** A DRAM timing model, seen from outside: the completion cycle of a
      request submitted to in-package module `device`. */
  type Backend = (nat, MemReq) -> u64

  /** One request as handed to a DRAM module. */
  datatype Submission = Submission(device: nat, req: MemReq)

  /** The in-package DRAM pool: module count (kept in a `uint8_t`) and
      interleaving granularity in lines. */
  datatype McPool = McPool(drams: u8, mapGran: u32)

  datatype Controller = Controller(
    hasExtDram: bool,
    mcPool: Option<McPool>,
    book: Footprint.Bookkeeper,
    sent: seq<Submission>)

  /** Fatal errors: each ends the simulation. */
  datatype Fault =
    | UnsupportedDramType   // a pool of a type other than "DDR"
    | NoDramModule          // neither pool configured
    | UnknownRequestType    // the resolver's "unreachable request type"
    | NoInPackageDram       // the in-package pool was never set up
    | DivisionByZero        // zero modules or zero granularity

  // ---------------------------------------------------------------------
  // Construction

  /** The configuration keys the constructor reads; `None` is an absent key. */
  datatype ExtDramConfig = ExtDramConfig(dramType: Option<string>)
  datatype McDramConfig = McDramConfig(dramType: Option<string>, dramsPerCtrl: Option<u32>)
  datatype Config = Config(
    extDram: Option<ExtDramConfig>,
    mcDram: Option<McDramConfig>,
    mapGranu: Option<u32>)

  const DEFAULT_DRAM_TYPE: string := "DDR"
  const DEFAULT_DRAMS_PER_CTRL: u32 := 0
  const DEFAULT_MAP_GRAN: u32 := 1

  function GetOr<T>(o: Option<T>, default: T): T {
    match o
    case Some(v) => v
    case None => default
  }

  /** The in-package pool as the constructor sets it up: the module count
      is read as 32 bits and stored in eight. */
  function PoolOf(mc: McDramConfig, mapGranu: Option<u32>): McPool {
    McPool(TruncateToU8(GetOr(mc.dramsPerCtrl, DEFAULT_DRAMS_PER_CTRL)), GetOr(mapGranu, DEFAULT_MAP_GRAN))
  }

  /** The module count the pool keeps: a configured count below 256 is kept
      as it is, and the pool has no module exactly when the count is a
      multiple of 256 (the default count 0 included). */
  lemma PoolOfCount(mc: McDramConfig, mapGranu: Option<u32>)
    ensures var k := GetOr(mc.dramsPerCtrl, DEFAULT_DRAMS_PER_CTRL);
      && (PoolOf(mc, mapGranu).drams == k <==> k < U8_LIMIT)
      && (PoolOf(mc, mapGranu).drams == 0 <==> k % U8_LIMIT == 0)
  {
  }

  /** The constructor's checks. An in-package pool of a foreign type only
      fails once a module is built, i.e. when its module count is not 0. */
  function Build(cfg: Config): (r: Result<Controller, Fault>)
    ensures r == Failure(NoDramModule) <==> cfg.extDram.None? && cfg.mcDram.None?
    ensures r.Success? <==>
      && (cfg.extDram.Some? || cfg.mcDram.Some?)
      && (cfg.extDram.Some? ==> GetOr(cfg.extDram.value.dramType, DEFAULT_DRAM_TYPE) == "DDR")
      && (cfg.mcDram.Some? && PoolOf(cfg.mcDram.value, cfg.mapGranu).drams > 0 ==>
            GetOr(cfg.mcDram.value.dramType, DEFAULT_DRAM_TYPE) == "DDR")
    ensures r.Success? ==>
      && r.value.hasExtDram == cfg.extDram.Some?
      && r.value.mcPool == (if cfg.mcDram.Some? then Some(PoolOf(cfg.mcDram.value, cfg.mapGranu)) else None)
      && r.value.book == Footprint.EMPTY
      && r.value.sent == []
  {
    if cfg.extDram.Some? && GetOr(cfg.extDram.value.dramType, DEFAULT_DRAM_TYPE) != "DDR" then
      Failure(UnsupportedDramType)
    else if cfg.mcDram.Some? && PoolOf(cfg.mcDram.value, cfg.mapGranu).drams > 0
         && GetOr(cfg.mcDram.value.dramType, DEFAULT_DRAM_TYPE) != "DDR" then
      Failure(UnsupportedDramType)
    else if cfg.extDram.None? && cfg.mcDram.None? then
      Failure(NoDramModule)
    else
      var pool := if cfg.mcDram.Some? then Some(PoolOf(cfg.mcDram.value, cfg.mapGranu)) else None;
      Success(Controller(cfg.extDram.Some?, pool, Footprint.EMPTY, []))
  }

  // ---------------------------------------------------------------------
  // Access

  /** The outcome of a served request: the controller after it, the request
      as the caller sees it afterwards, and the returned cycle. */
  datatype Served = Served(ctrl: Controller, req: MemReq, cycle: u64)

  /** The in-package pool exists and the routing divisions are defined. */
  predicate Routable(c: Controller) {
    c.mcPool.Some? && c.mcPool.value.drams >= 1 && c.mcPool.value.mapGran >= 1
  }

  /** Where a line address is sent. */
  function Route(c: Controller, line: u64): (p: Placement)
    requires Routable(c)
    ensures p.device < c.mcPool.value.drams
    ensures p.local <= line
  {
    Interleave(line, c.mcPool.value.mapGran, c.mcPool.value.drams)
  }

  /** One call of the controller's access entry point. */
  function Access(c: Controller, req: MemReq, backend: Backend): (r: Result<Served, Fault>)
    ensures r.Failure? <==> req.kind.Unrecognised? || (!Bypasses(req.kind) && !Routable(c))
    ensures r.Failure? ==>
      r.error == (if req.kind.Unrecognised? then UnknownRequestType
                  else if c.mcPool.None? then NoInPackageDram
                  else DivisionByZero)
    ensures r.Success? ==>
      && Resolve(req.kind, req.noExcl) == Some(r.value.req.state)
      && r.value.req == req.(state := r.value.req.state, cycle := r.value.cycle)
    ensures r.Success? && Bypasses(req.kind) ==>
      r.value.ctrl == c && r.value.cycle == req.cycle
    ensures r.Success? && !Bypasses(req.kind) ==>
      && r.value.ctrl.hasExtDram == c.hasExtDram
      && r.value.ctrl.mcPool == c.mcPool
      && r.value.ctrl.book == Footprint.Record(c.book, req.lineAddr)
      && r.value.ctrl.sent == c.sent + [Submission(
           Route(c, req.lineAddr).device,
           r.value.req.(lineAddr := Route(c, req.lineAddr).local, cycle := req.cycle))]
      && r.value.cycle == backend(Route(c, req.lineAddr).device,
           r.value.req.(lineAddr := Route(c, req.lineAddr).local, cycle := req.cycle))
  {
    match Resolve(req.kind, req.noExcl)
    case None => Failure(UnknownRequestType)
    case Some(st) =>
      var granted := req.(state := st);
      if Bypasses(req.kind) then
        Success(Served(c, granted, req.cycle))
      else
        var book := Footprint.Record(c.book, req.lineAddr);
        if c.mcPool.None? then
          Failure(NoInPackageDram)
        else if c.mcPool.value.drams == 0 || c.mcPool.value.mapGran == 0 then
          Failure(DivisionByZero)
        else
          var p := Route(c, req.lineAddr);
          var rewritten := granted.(lineAddr := p.local);
          var done := backend(p.device, rewritten);
          Success(Served(
            c.(book := book, sent := c.sent + [Submission(p.device, rewritten)]),
            granted.(cycle := done),
            done))
  }

  /** Serves a sequence of requests in order; the first fatal error ends
      the run. */
  function Run(c: Controller, reqs: seq<MemReq>, backend: Backend): Result<Controller, Fault>
    decreases |reqs|
  {
    if |reqs| == 0 then Success(c)
    else
      var served :- Access(c, reqs[0], backend);
      Run(served.ctrl, reqs[1..], backend)
  }

  /** The line addresses of the requests that reach memory. */
  function MissLines(reqs: seq<MemReq>): (lines: seq<nat>)
    ensures |lines| <= |reqs|
  {
    if |reqs| == 0 then []
    else (if Bypasses(reqs[0].kind) then [] else [reqs[0].lineAddr as nat]) + MissLines(reqs[1..])
  }

  // ---------------------------------------------------------------------
  // Invariant

  /** A controller as construction and accesses leave it: a pool exists,
      the statistics are consistent, there was exactly one DRAM submission
      per counted miss, and every submission went to an existing module. */
  ghost predicate Valid(c: Controller) {
    && (c.hasExtDram || c.mcPool.Some?)
    && Footprint.Valid(c.book)
    && c.book.llcTotalMisses == |c.sent|
    && (c.mcPool.None? ==> c.sent == [])
    && (c.mcPool.Some? ==>
          forall i :: 0 <= i < |c.sent| ==> c.sent[i].device < c.mcPool.value.drams)
  }

  lemma BuildValid(cfg: Config)
    requires Build(cfg).Success?
    ensures Valid(Build(cfg).value)
  {
    Footprint.EmptyValid();
  }

  lemma AccessPreservesValid(c: Controller, req: MemReq, backend: Backend)
    requires Valid(c)
    ensures Access(c, req, backend).Success? ==> Valid(Access(c, req, backend).value.ctrl)
  {
    if Access(c, req, backend).Success? && !Bypasses(req.kind) {
      Footprint.RecordPreservesValid(c.book, req.lineAddr);
    }
  }

  lemma {:induction false} RunPreservesValid(c: Controller, reqs: seq<MemReq>, backend: Backend)
    requires Valid(c) && Run(c, reqs, backend).Success?
    ensures Valid(Run(c, reqs, backend).value)
    decreases |reqs|
  {
    if |reqs| > 0 {
      AccessPreservesValid(c, reqs[0], backend);
      RunPreservesValid(Access(c, reqs[0], backend).value.ctrl, reqs[1..], backend);
    }
  }

  /** A valid controller's counters are ordered. */
  lemma ValidCountersOrdered(c: Controller)
    requires Valid(c)
    ensures c.book.totalPages <= c.book.llcCompMisses <= c.book.llcTotalMisses
  {
    Footprint.ValidCountersOrdered(c.book);
  }

  /** Over a run, the statistics record exactly the requests that reached
      memory, and each of them was submitted to one DRAM module. */
  lemma {:induction false} RunRecordsMisses(c: Controller, reqs: seq<MemReq>, backend: Backend)
    requires Run(c, reqs, backend).Success?
    ensures Run(c, reqs, backend).value.book == Footprint.Replay(c.book, MissLines(reqs))
    ensures c.sent <= Run(c, reqs, backend).value.sent
    ensures |Run(c, reqs, backend).value.sent| == |c.sent| + |MissLines(reqs)|
    decreases |reqs|
  {
    if |reqs| > 0 {
      var next := Access(c, reqs[0], backend).value.ctrl;
      var rest := MissLines(reqs[1..]);
      assert Run(c, reqs, backend) == Run(next, reqs[1..], backend);
      RunRecordsMisses(next, reqs[1..], backend);
      if Bypasses(reqs[0].kind) {
        assert MissLines(reqs) == rest;
      } else {
        var lines := [reqs[0].lineAddr as nat] + rest;
        assert MissLines(reqs) == lines;
        assert lines[0] == reqs[0].lineAddr && lines[1..] == rest;
        assert Footprint.Replay(c.book, lines)
            == Footprint.Replay(Footprint.Record(c.book, reqs[0].lineAddr), rest);
      }
    }
  }

  /** From construction, the statistics equal the reference tally of the
      non-bypassed requests: clean evictions are never counted. */
  lemma FreshRunTally(cfg: Config, reqs: seq<MemReq>, backend: Backend)
    requires Build(cfg).Success?
    requires Run(Build(cfg).value, reqs, backend).Success?
    ensures Run(Build(cfg).value, reqs, backend).value.book == Footprint.Tally(MissLines(reqs))
  {
    RunRecordsMisses(Build(cfg).value, reqs, backend);
    Footprint.ReplayIsTally(MissLines(reqs));
  }

  /** With a power-of-two granularity, the module index and the rewritten
      address handed to the DRAM module name the original line. */
  lemma SubmissionNamesLine(c: Controller, req: MemReq, backend: Backend)
    requires Routable(c) && IsPowerOfTwo(c.mcPool.value.mapGran)
    requires !req.kind.Unrecognised? && !Bypasses(req.kind)
    ensures Access(c, req, backend).Success?
    ensures var s := Access(c, req, backend).value.ctrl.sent[|c.sent|];
      Deinterleave(Placement(s.device, s.req.lineAddr), c.mcPool.value.mapGran, c.mcPool.value.drams)
        == req.lineAddr
  {
    InterleaveRoundTrip(req.lineAddr, c.mcPool.value.mapGran, c.mcPool.value.drams);
  }

  /** The default module count (0), or any count that is a multiple of 256,
      leaves the in-package pool empty: every request that reaches memory
      then divides by zero. */
  lemma EmptyPoolFaults(cfg: Config, req: MemReq, backend: Backend)
    requires Build(cfg).Success? && cfg.mcDram.Some?
    requires GetOr(cfg.mcDram.value.dramsPerCtrl, DEFAULT_DRAMS_PER_CTRL) % 256 == 0
    requires req.kind in {GETS, GETX, PUTX}
    ensures Access(Build(cfg).value, req, backend) == Failure(DivisionByZero)
  {
  }

  /** A two-read scenario: 64-line interleaving over four modules; GETS to
      lines 10 and 138 are granted E and go to modules 0 and 2, both at
      local address 10. */
  lemma ScenarioTwoReads(backend: Backend)
    ensures var cfg := Config(None, Some(McDramConfig(None, Some(4))), Some(64));
      && Build(cfg).Success?
      && var c0 := Build(cfg).value;
         var a := Access(c0, MemReq(GETS, 10, false, I, 100), backend);
         && a.Success?
         && a.value.req.state == E
         && a.value.ctrl.sent == [Submission(0, MemReq(GETS, 10, false, E, 100))]
         && var b := Access(a.value.ctrl, MemReq(GETS, 138, false, I, 200), backend);
            && b.Success?
            && b.value.req.lineAddr == 138
            && b.value.ctrl.sent[1] == Submission(2, MemReq(GETS, 10, false, E, 200))
            && b.value.ctrl.book.llcTotalMisses == 2
            && b.value.ctrl.book.llcCompMisses == 2
            && b.value.ctrl.book.totalPages == 2
  {
    Example64x4();
  }
}

=== FILE: results.dfy ===
/** `Option` for a configuration key that may be absent or a resolver
    outcome that may be fatal, and `Result` for an operation that either
    succeeds or ends the simulation with a fatal error. */
module Results {

  datatype Option<+T> = None | Some(value: T)

  /** A run of accesses stops at the first fatal error; `:-` propagates it. */
  datatype Result<+T, +E> = Success(value: T) | Failure(error: E) {

    predicate IsFailure() {
      Failure?
    }

    function PropagateFailure<U>(): Result<U, E>
      requires Failure?
    {
      Failure(error)
    }

    function Extract(): T
      requires Success?
    {
      value
    }
  }
}
